=== FILE: README.md ===
# Skate Shop order pricing, modelled in Dafny

The Skate Shop is a small Swing order taker. The customer picks one deck, one
set of trucks and one set of wheels from single-selection lists, picks any
number of accessories from a multi-selection list, and presses Purchase. The
window then shows the subtotal, a 6 % sales tax and the total, and clears
every list. When nothing priced is selected it shows a "No items have been
selected" notice instead.

The repository has two variants of the same window:

- `SkateboardApp.java` is the per-panel variant. Each part panel owns a
  name table, a price table and a list. It prices its own selection through
  a cost getter. A single-selection getter first re-selects entry 0 when the
  list is empty, then looks the selected name up in the name table.
- `SkateboardAppComp.java` is the registry variant. Each panel registers its
  list, with its price table, as an `Element` under a tag in an `Elements`
  registry. The Purchase handler looks up the tags `DeckList`, `TrucksList`,
  `WheelsList` and `AccessoryList` in that order, skips a missing tag, and
  re-selects index 0 in any found list whose selection is empty. It then adds
  `prices[i]` for every selected index `i`.

The model is functional. A list's selection is an increasing sequence of
indices together with the list's size and selection mode (`jlist.dfy`). The
catalogs are parallel name and price sequences (`catalog.dfy`). Prices are
exact `real` dollar amounts, and the tax is exactly 6/100 of the subtotal
(`tax.dfy`). Each handler is a pure function from the window's state to an
outcome: the "no items" notice, the totals, or (registry variant only) the
runtime exception that would end the handler. Each outcome carries the state
the handler leaves behind (`panel_app.dfy` and `registry_app.dfy`). `versions.dfy` embeds a per-panel state into the
registry the other variant would hold, and proves where the two handlers
agree and where they differ.

Notes on the code's behaviour:

- `getByTag` returns the first element registered under a tag, so when a
  tag is registered twice the first registration is the one found.
- Registering a tag twice is not rejected.
- No rounding is applied to the tax or the total. Two-decimal display is a
  formatting step outside the model.
- Reading the cost mutates the selection: an empty single selection is
  re-selected to entry 0 even when the outcome is the "no items" notice.
- The registry variant also applies that coercion to the accessory list (see
  Findings).
- The per-panel getters compare names with Java's `==`. The lists are built
  from the very same name arrays, so this is the same as comparing the
  strings' contents, which is what the model does.

## Model

| member | source | states |
|---|---|---|
| Catalog.Decks | SkateboardApp.java:427-432 | The deck catalog has equally long name and price tables, unique names, no negative price, and "None" at 0.00 in entry 0 |
| Catalog.Trucks | SkateboardApp.java:521-526 | The trucks catalog has the same shape, with "None" at 0.00 in entry 0 |
| Catalog.Wheels | SkateboardApp.java:604-609 | The wheels catalog has the same shape, with five entries and "None" at 0.00 in entry 0 |
| Catalog.Accessories | SkateboardApp.java:689-694 | The accessory catalog is well formed with unique names, and its entry 0 is the priced "Grip tape" at 10.00 (there is no "None") |
| Search.FirstIndexOf | SkateboardApp.java:497-504 | The name-lookup loop stops at the first entry equal to the query: the index found holds the query, no earlier entry does, and nothing is found exactly when the query is absent |
| Catalog.NamePrice | SkateboardApp.java:479-507 | A looked-up name costs the price beside its first occurrence (entry i's price when no earlier entry has the name, so entry i's price whenever names are unique), and 0 when no entry has the name; never negative |
| Catalog.SumAtBounds | SkateboardApp.java:745-763 | With no negative price, a selection's cost is non-negative and at least the price of each selected entry |
| JListModel.SetSelectedIndex | SkateboardApp.java:467-469 | Selecting index i leaves exactly [i] selected; an index beyond the list leaves the list unchanged; validity is kept |
| JListModel.ClearSelection | SkateboardApp.java:724-727 | Clearing leaves nothing selected and keeps the list's size and mode |
| JListModel.SelectFirstIfEmpty | SkateboardApp.java:483-487 | An empty selection becomes [0] and a non-empty one is untouched; afterwards the selection is empty only if the list has no entries |
| Tax.MakeTotals | SkateboardApp.java:135-139 | tax × 100 = subtotal × 6 and total = subtotal + tax; a positive subtotal gives 0 < tax < subtotal < total (the registry variant's lines 171-175 are the same) |
| PanelApp.Initial | SkateboardApp.java:454-458 | The window opens with every single list on entry 0 ("None") and no accessory selected, in a valid state with unique names |
| PanelApp.SingleCost | SkateboardApp.java:476-508 | A single-selection getter never prices an empty selection: an empty one is first set to [0], any other is kept. It returns the price beside the first entry with the selected name: entry 0's price for [0], and with unique names the price of the selected entry. It changes nothing else about the panel |
| PanelApp.NamesCostIsIndexSum | SkateboardApp.java:745-763 | With unique names, pricing each selected accessory by looking up its name equals summing the price table at the selected indices |
| PanelApp.AccessoryCost | SkateboardApp.java:734-767 | The accessory getter returns 0 when no accessory is selected and is never negative; with unique names it is the sum of the prices of all selected accessories; it returns no panel, so the selection is unchanged |
| PanelApp.CostsAreIndexSubtotal | SkateboardApp.java:124-127 | With unique names, the four getters' costs added up equal the sum of the price tables at the selected indices |
| PanelApp.ClearAll | SkateboardApp.java:146-149 | After clearing, deck, trucks and wheels are on entry 0 and no accessory is selected; catalogs are unchanged and the state stays valid |
| PanelApp.Purchase | SkateboardApp.java:116-152 | "No items" moves only empty single lists to [0] and leaves the accessories untouched. A purchase has tax 6 %, total = subtotal + tax > subtotal > 0, and clears every panel. With unique names, the outcome is "no items" exactly when the index-read subtotal (deck + trucks + wheels + accessories) is zero, and a purchase's subtotal is that sum |
| PanelApp.NothingChosenMeansNoItems | SkateboardApp.java:129-133 | With "None" free, a cleared state gives the "no items" notice and stays exactly as it was |
| PanelApp.SecondPurchaseFindsNothing | SkateboardApp.java:146-149 | With "None" free, right after a completed purchase, pressing Purchase again gives the "no items" notice and changes nothing |
| PanelApp.ScenarioThrasherWheelsBearings | SkateboardApp.java:124-139 | Master Thrasher, 55 mm wheels and Bearings come to subtotal 112.00, tax 6.72, total 118.72 |
| PanelApp.ScenarioAccessoriesOnly | SkateboardApp.java:136-139 | Grip tape and the Nuts & bolts kit alone come to 13.00, 0.78 and 13.78 |
| Registry.NewElement | SkateboardAppComp.java:234-257 | A new element has the given kind and tag and the price table [0.00] whatever the kind; it wraps a list exactly when it is a LIST element built around a list |
| Registry.SetPrices | SkateboardAppComp.java:288-294 | After setPrices(p), getPrices() returns p, and kind, tag and list are unchanged |
| Registry.Add | SkateboardAppComp.java:212-214 | add appends the element at the end; every earlier element keeps its place |
| Registry.IndexOfTag | SkateboardAppComp.java:216-223 | The lookup stops at the first element with the tag; no earlier element has it; nothing is found exactly when no element has it |
| Registry.GetByTag | SkateboardAppComp.java:216-223 | getByTag returns an element with the tag that is registered and preceded by no other element with it, and returns null exactly when the tag is unregistered |
| Registry.GetByTagAfterAdd | SkateboardAppComp.java:212-223 | After add, a lookup answers as before when the tag was already registered (so a later duplicate is never returned); it finds the new element only for a new tag |
| RegistryApp.PurchaseTags | SkateboardAppComp.java:129-138 | The handler asks for "DeckList", "TrucksList", "WheelsList", "AccessoryList", in that order |
| RegistryApp.InitialRegistry | SkateboardAppComp.java:545-736 | The window registers "TitleLabel", "DeckList", "TrucksList", "WheelsList", "AccessoryList" in that order |
| RegistryApp.CoerceEmpty | SkateboardAppComp.java:148-151 | An empty selection of a non-empty list becomes exactly [0] under the as-written policy (and, under the corrected policy, for a single-selection list); a non-empty one is untouched; under the corrected policy a multi-select list is never touched |
| RegistryApp.PriceList | SkateboardAppComp.java:154-161 | The index loop succeeds exactly when every selected index has a price, and then yields the sum of prices[i] over the selection; otherwise it reports a selected index beyond the price table |
| RegistryApp.PriceTagsFrame | SkateboardAppComp.java:137-163 | The tag loop changes only list selections, each either kept or coerced; kinds, tags, prices and the presence of lists stay as they were |
| RegistryApp.PriceTagsMatchesReference | SkateboardAppComp.java:137-163 | When every found list is priceable, the tag loop raises nothing. Its subtotal is the reference sum over the tags of each found list's prices at its effective selection, taken from the registry as it was before the loop |
| RegistryApp.PriceTagsFailsWhenUnpriceable | SkateboardAppComp.java:137-163 | Over distinct tags, when some found element has no list or a selected index beyond its price table, the tag loop ends in an exception |
| RegistryApp.ClearElement | SkateboardAppComp.java:597-741 | Clearing puts a non-empty deck, trucks or wheels list on [0] and leaves an empty one as it is, and empties the accessory list; a list keeps its size and mode; any other element is untouched |
| RegistryApp.ClearPanels | SkateboardAppComp.java:181-185 | The four clearSelection calls clear each registered element as ClearElement states, keeping the registry's length |
| RegistryApp.ClearPanelsForgetsSelections | SkateboardAppComp.java:181-185 | Once the panels are cleared, the selections made before (or coerced by the loop) leave no trace |
| RegistryApp.PurchaseUnder | SkateboardAppComp.java:127-188 | With a priceable registry, "no items" comes exactly when the reference sum is zero, and a purchase's subtotal is that sum. The handler crashes exactly when the registry is unpriceable: a found element has no list (the null dereference at line 148) or a selected index lies beyond its price table (the array access at line 159). "No items" and a crash change nothing but selections; a purchase has tax = 6 % and total = subtotal + tax |
| RegistryApp.Purchase | SkateboardAppComp.java:127-188 | The handler as written crashes exactly when the registry is unpriceable, and otherwise reports "no items" exactly when the reference sum is zero |
| RegistryApp.PurchasedClears | SkateboardAppComp.java:170-186 | A completed purchase leaves the loop's registry with the panels cleared, and that registry differs from the original only in its selections |
| RegistryApp.UnregisteredTagContributesNothing | SkateboardAppComp.java:139-141 | A tag with no element is skipped: it adds nothing and changes nothing |
| RegistryApp.UnqueriedElementIgnored | SkateboardAppComp.java:545-546 | An element registered in front under a tag that is never asked for (the title label) changes neither priceability nor the subtotal |
| Versions.InitialStatesCorrespond | SkateboardAppComp.java:545-736 | The registry variant's opening registry is the embedding of the per-panel variant's opening state |
| Versions.EmbedRefSum | SkateboardAppComp.java:137-163 | For an embedded state, the registry's reference sum is the chosen deck, trucks and wheels plus the accessories at their coerced selection |
| Versions.PanelSubtotalIsIndexSubtotal | SkateboardApp.java:124-127 | With unique names, the per-panel subtotal (0 for "no items") equals the index-read sum of the four selections |
| Versions.AsWrittenAddsFirstAccessory | SkateboardAppComp.java:148-151 | With unique names and a non-empty accessory catalog, on the same selections the registry handler as written never crashes. Its subtotal equals the per-panel one, plus accessory 0's price exactly when no accessory is selected |
| Versions.CorrectedAgreesWithPanels | SkateboardAppComp.java:148-151 | With only single lists coerced, the registry handler gives "no items" exactly when the per-panel one does, with the same subtotal, on every valid state with unique names |
| Versions.ClearedStateDiverges | SkateboardAppComp.java:148-151 | With unique names, "None" free in every single list and a priced accessory 0: when every list is cleared, the per-panel handler reports "no items" but the registry handler as written sells accessory 0 |
| Versions.OpeningPurchaseDiverges | SkateboardAppComp.java:720-736 | In a freshly opened window, Purchase gives "no items" in the per-panel variant but sells Grip tape for 10.00 in the registry variant |
| Versions.PhantomGripTape | SkateboardAppComp.java:148-151 | A Master Thrasher deck alone costs 60.00 per panel, 70.00 in the registry variant as written, and 60.00 once corrected |
| Versions.ClearPanelsOnEmbed | SkateboardAppComp.java:181-185 | Clearing the registry's panels is the per-panel clearing, seen through the embedding |
| Versions.PurchasedEmbedIsCleared | SkateboardAppComp.java:181-185 | After a completed purchase, the registry holds the embedding of the cleared state |
| Versions.AsWrittenSecondPurchaseSellsFirstAccessory | SkateboardAppComp.java:739-741 | With unique names, "None" free in every single list and a priced accessory 0, in the registry variant as written a purchase right after a completed one is never "no items": it sells accessory 0 at its price |

## Left out

- Window, panel and dialog construction, layout, window centring and colours (`positionWindow`, `TitlePanel` layout, `CostDialog`, `SplashDialog`): these are Swing presentation.
- The splash screen's 2.5-second sleep: this is timing with no effect on pricing.
- Currency formatting with `DecimalFormat`: the model returns the numbers only.
- `JOptionPane` messages and `System.exit` in the Exit handler: the "no items" notice is the `NoItems` outcome, and exiting is not modelled.
- `Debug.java` and every debug or `System.out` print: this is logging with no effect on state.
- Java `double` arithmetic: prices, sums and the tax are exact reals, so binary rounding and the exact-zero test on doubles are not modelled.
- Swing list internals: a selection is an increasing index sequence. Only `setSelectedIndex`, `clearSelection`, `isSelectionEmpty`, `getSelectedIndices`, `getSelectedValue` (the lowest selected entry) and `getSelectedValuesList` (the names at the selected indices) are modelled.
- The second `Element` constructor (button/label/list with a listener) is never called by the pricing code. It is not modelled beyond the shared default price table.
- The `JLabel`/`JButton` casts in the `Element` constructor, and their `ClassCastException`, are not modelled: labels and buttons play no part in pricing.
- PanelApp.SingleCost: requires a non-empty name table. With an empty one the source would dereference a null selected value; every catalog in the source is non-empty.
- RegistryApp.ClearPanels: clears every element registered under a panel's tag, whereas the source clears each panel's own list. The two coincide when each tag is registered once, as the window does.
- The runtime exceptions of the registry handler (an element without a list, or an index beyond the price table) end the handler with a `Crashed` outcome. What Swing then does with the exception is not modelled.

## Findings

| source | as written | input that shows it | evidently intended | confidence | as-written member | corrected member |
|---|---|---|---|---|---|---|
| SkateboardAppComp.java:148-151 | An empty selection in every found list, including the multi-selection accessory list, is replaced by index 0 before pricing | Deck "Master Thrasher" with no accessory gives subtotal 70.00 instead of 60.00. A freshly opened window sells a Grip tape for 10.00 instead of showing "no items" | Only single-selection lists are re-selected, so an empty accessory list adds nothing, as `getAccessoryCost` in SkateboardApp.java:734-767 does | high; not executed | Versions.PhantomGripTape | Versions.CorrectedAgreesWithPanels |

=== FILE: catalog.dfy ===
/** The part catalogs of the skate shop: parallel name and price tables, the
    name-to-price lookup the per-panel getters perform, and the sum of the
    prices at a sequence of selected indices. Prices are exact dollar
    amounts. */
module Catalog {
  import opened Wrappers
  import opened Search

  datatype Catalog = Catalog(names: seq<string>, prices: seq<real>)

  /** Equally long name and price tables, no negative price. */
  predicate WellFormed(c: Catalog)
  {
    && |c.names| == |c.prices|
    && forall i :: 0 <= i < |c.prices| ==> c.prices[i] >= 0.0
  }

  /** A catalog for a single-selection list: well formed, names unique, and
      entry 0 is the free "None" choice. */
  predicate SingleSelectCatalog(c: Catalog)
  {
    && WellFormed(c)
    && Distinct(c.names)
    && |c.names| > 0
    && c.names[0] == "None"
    && c.prices[0] == 0.0
  }

  /** Every index of `idx` lies below `n`. */
  predicate IndicesBelow(idx: seq<nat>, n: nat)
  {
    forall k :: 0 <= k < |idx| ==> idx[k] < n
  }

  function Decks(): (c: Catalog)
    ensures SingleSelectCatalog(c) && |c.names| == 4
  {
    Catalog(["None", "Master Thrasher", "Dictator", "Street King"],
            [0.00, 60.00, 45.00, 50.00])
  }

  function Trucks(): (c: Catalog)
    ensures SingleSelectCatalog(c) && |c.names| == 4
  {
    Catalog(["None", "7.75\" axle", "8.00\" axle", "8.50\" axle"],
            [0.00, 35.00, 40.00, 45.00])
  }

  function Wheels(): (c: Catalog)
    ensures SingleSelectCatalog(c) && |c.names| == 5
  {
    Catalog(["None", "51 mm", "55 mm", "58 mm", "61 mm"],
            [0.00, 20.00, 22.00, 24.00, 28.00])
  }

  /** The accessories have no "None" entry: entry 0 is a priced item. */
  function Accessories(): (c: Catalog)
    ensures WellFormed(c) && Distinct(c.names) && |c.names| == 4
    ensures c.names[0] == "Grip tape" && c.prices[0] == 10.00
    ensures "None" !in c.names
  {
    Catalog(["Grip tape", "Bearings", "Riser pads", "Nuts & bolts kit"],
            [10.00, 30.00, 2.00, 3.00])
  }

  /** The price the getters assign to a displayed name: the price beside the
      first entry with that name, and 0 when no entry has it. */
  function NamePrice(c: Catalog, name: string): (r: real)
    requires WellFormed(c)
    ensures r >= 0.0
    ensures name !in c.names ==> r == 0.0
    ensures |c.names| > 0 && name == c.names[0] ==> r == c.prices[0]
    ensures forall i :: 0 <= i < |c.names| && c.names[i] == name && name !in c.names[..i] ==>
              r == c.prices[i]
    ensures Distinct(c.names) ==>
              forall i :: 0 <= i < |c.names| && c.names[i] == name ==> r == c.prices[i]
  {
    match FirstIndexOf(c.names, name)
    case None => 0.0
    case Some(i) =>
      assert forall j :: 0 <= j < |c.names| && c.names[j] == name ==>
               Distinct(c.names) ==> FirstIndexOf(c.names, name) == Some(j) by {
        forall j | 0 <= j < |c.names| && c.names[j] == name && Distinct(c.names) {
          FirstIndexOfDistinct(c.names, j);
        }
      }
      c.prices[i]
  }

  /** The sum of `prices[i]` over the selected indices, in order: the
      reference definition of what a selection costs. */
  function SumAt(prices: seq<real>, idx: seq<nat>): real
    requires IndicesBelow(idx, |prices|)
  {
    if |idx| == 0 then 0.0 else prices[idx[0]] + SumAt(prices, idx[1..])
  }

  /** With no negative price a selection costs at least each of its parts,
      and so never less than nothing. */
  lemma {:induction false} SumAtBounds(prices: seq<real>, idx: seq<nat>)
    requires IndicesBelow(idx, |prices|)
    requires forall i :: 0 <= i < |prices| ==> prices[i] >= 0.0
    ensures SumAt(prices, idx) >= 0.0
    ensures forall k :: 0 <= k < |idx| ==> SumAt(prices, idx) >= prices[idx[k]]
  {
    if |idx| > 0 {
      SumAtBounds(prices, idx[1..]);
      forall k | 0 < k < |idx|
        ensures SumAt(prices, idx) >= prices[idx[k]]
      {
        assert idx[k] == idx[1..][k - 1];
      }
    }
  }
}

=== FILE: jlist.dfy ===
/** The part of a Swing list's selection model that the pricing logic relies
    on: a list of `size` entries, a selection mode, and the selected indices
    in increasing order (as `getSelectedIndices` reports them). */
module JListModel {

  datatype Mode = SingleSelection | MultipleIntervalSelection

  datatype ListState = ListState(size: nat, mode: Mode, selected: seq<nat>)

  predicate Increasing(s: seq<nat>)
  {
    forall i, j :: 0 <= i < j < |s| ==> s[i] < s[j]
  }

  /** A selection the list can actually hold: increasing, within the list,
      and at most one index in single-selection mode. */
  predicate Valid(l: ListState)
  {
    && Increasing(l.selected)
    && (forall k :: 0 <= k < |l.selected| ==> l.selected[k] < l.size)
    && (l.mode == SingleSelection ==> |l.selected| <= 1)
  }

  /** `setSelectedIndex(i)`: selects exactly `i`; an index outside the list
      is ignored and leaves the selection as it was. */
  function SetSelectedIndex(l: ListState, i: nat): (r: ListState)
    ensures r.size == l.size && r.mode == l.mode
    ensures i < l.size ==> r.selected == [i]
    ensures i >= l.size ==> r == l
    ensures Valid(l) ==> Valid(r)
  {
    if i < l.size then l.(selected := [i]) else l
  }

  /** `clearSelection()`: nothing is selected afterwards. */
  function ClearSelection(l: ListState): (r: ListState)
    ensures r.size == l.size && r.mode == l.mode
    ensures r.selected == []
    ensures Valid(r)
  {
    l.(selected := [])
  }

  /** The defensive step of the purchase logic: an empty selection is
      replaced by index 0; a non-empty one is left alone. Afterwards the
      selection is empty only if the list itself is. */
  function SelectFirstIfEmpty(l: ListState): (r: ListState)
    ensures r.size == l.size && r.mode == l.mode
    ensures l.selected != [] ==> r == l
    ensures l.selected == [] && l.size > 0 ==> r.selected == [0]
    ensures r.selected == [] <==> l.selected == [] && l.size == 0
    ensures Valid(l) ==> Valid(r)
  {
    if l.selected == [] then SetSelectedIndex(l, 0) else l
  }

  /** Applying the defensive step twice changes nothing more. */
  lemma SelectFirstIfEmptyIdempotent(l: ListState)
    ensures SelectFirstIfEmpty(SelectFirstIfEmpty(l)) == SelectFirstIfEmpty(l)
  {
  }
}

=== FILE: panel_app.dfy ===
/** The per-panel variant of the shop: each part panel owns its catalog and
    its list, and prices its own selection through a cost getter; the
    Purchase handler adds the four costs, applies the tax and clears the
    panels. */
module PanelApp {
  import opened Search
  import opened JListModel
  import opened Catalog
  import opened Tax

  /** One part panel: its name/price tables and the list showing the names. */
  datatype Panel = Panel(catalog: Catalog, list: ListState)

  predicate ValidPanel(p: Panel)
  {
    && WellFormed(p.catalog)
    && p.list.size == |p.catalog.names|
    && JListModel.Valid(p.list)
  }

  /** A deck, trucks or wheels panel: one choice at a time, never an empty list. */
  predicate SinglePanel(p: Panel)
  {
    ValidPanel(p) && p.list.mode == SingleSelection && |p.catalog.names| > 0
  }

  /** The accessory panel: any number of choices. */
  predicate MultiPanel(p: Panel)
  {
    ValidPanel(p) && p.list.mode == MultipleIntervalSelection
  }

  datatype AppState = AppState(deck: Panel, trucks: Panel, wheels: Panel, accessories: Panel)

  predicate ValidState(s: AppState)
  {
    SinglePanel(s.deck) && SinglePanel(s.trucks) && SinglePanel(s.wheels) && MultiPanel(s.accessories)
  }

  /** Unique names in every panel, so that a displayed name identifies its entry. */
  predicate DistinctCatalogs(s: AppState)
  {
    && Distinct(s.deck.catalog.names) && Distinct(s.trucks.catalog.names)
    && Distinct(s.wheels.catalog.names) && Distinct(s.accessories.catalog.names)
  }

  /** The window as constructed: single lists on "None", no accessory. */
  function Initial(): (s: AppState)
    ensures ValidState(s) && DistinctCatalogs(s)
    ensures s.deck.list.selected == [0] && s.trucks.list.selected == [0]
    ensures s.wheels.list.selected == [0] && s.accessories.list.selected == []
  {
    AppState(Panel(Decks(), ListState(4, SingleSelection, [0])),
             Panel(Trucks(), ListState(4, SingleSelection, [0])),
             Panel(Wheels(), ListState(5, SingleSelection, [0])),
             Panel(Accessories(), ListState(4, MultipleIntervalSelection, [])))
  }

  /** A getter's result: the cost, and the panel as the getter leaves it. */
  datatype Costed = Costed(cost: real, panel: Panel)

  /** `getDeckCost`, `getTrucksCost`, `getWheelsCost`: an empty selection is
      first reset to entry 0, then the selected name is looked up in the
      name table and its price returned. */
  function SingleCost(p: Panel): (r: Costed)
    requires SinglePanel(p)
    ensures SinglePanel(r.panel) && r.panel.catalog == p.catalog
    ensures r.panel.list.selected == (if p.list.selected == [] then [0] else p.list.selected)
    ensures r.cost >= 0.0
    ensures r.panel.list.selected == [0] ==> r.cost == p.catalog.prices[0]
    ensures Distinct(p.catalog.names) ==> r.cost == p.catalog.prices[r.panel.list.selected[0]]
  {
    var q := p.(list := SelectFirstIfEmpty(p.list));
    Costed(NamePrice(q.catalog, q.catalog.names[q.list.selected[0]]), q)
  }

  /** The accessory getter's loop: each selected name priced by lookup. */
  function NamesCost(c: Catalog, idx: seq<nat>): real
    requires WellFormed(c) && IndicesBelow(idx, |c.names|)
  {
    if |idx| == 0 then 0.0 else NamePrice(c, c.names[idx[0]]) + NamesCost(c, idx[1..])
  }

  /** With unique names, pricing each selected name by lookup is pricing
      each selected index directly. */
  lemma {:induction false} NamesCostIsIndexSum(c: Catalog, idx: seq<nat>)
    requires WellFormed(c) && Distinct(c.names) && IndicesBelow(idx, |c.names|)
    ensures NamesCost(c, idx) == SumAt(c.prices, idx)
  {
    if |idx| > 0 {
      NamesCostIsIndexSum(c, idx[1..]);
    }
  }

  /** `getAccessoryCost`: the sum of the prices of every selected accessory,
      nothing when none is selected. It returns no panel: the selection is
      left as it is. */
  function AccessoryCost(p: Panel): (r: real)
    requires ValidPanel(p)
    ensures p.list.selected == [] ==> r == 0.0
    ensures r >= 0.0
    ensures Distinct(p.catalog.names) ==> r == SumAt(p.catalog.prices, p.list.selected)
  {
    if Distinct(p.catalog.names) then
      NamesCostIsIndexSum(p.catalog, p.list.selected);
      SumAtBounds(p.catalog.prices, p.list.selected);
      NamesCost(p.catalog, p.list.selected)
    else
      NamesCostNonNegative(p.catalog, p.list.selected);
      NamesCost(p.catalog, p.list.selected)
  }

  lemma {:induction false} NamesCostNonNegative(c: Catalog, idx: seq<nat>)
    requires WellFormed(c) && IndicesBelow(idx, |c.names|)
    ensures NamesCost(c, idx) >= 0.0
  {
    if |idx| > 0 {
      NamesCostNonNegative(c, idx[1..]);
    }
  }

  /** The four `clearSelection` calls: single lists back to "None", no accessory. */
  function ClearAll(s: AppState): (r: AppState)
    requires ValidState(s)
    ensures ValidState(r)
    ensures r.deck.catalog == s.deck.catalog && r.trucks.catalog == s.trucks.catalog
    ensures r.wheels.catalog == s.wheels.catalog && r.accessories.catalog == s.accessories.catalog
    ensures Cleared(r)
  {
    AppState(s.deck.(list := SetSelectedIndex(s.deck.list, 0)),
             s.trucks.(list := SetSelectedIndex(s.trucks.list, 0)),
             s.wheels.(list := SetSelectedIndex(s.wheels.list, 0)),
             s.accessories.(list := ClearSelection(s.accessories.list)))
  }

  predicate Cleared(s: AppState)
  {
    && s.deck.list.selected == [0] && s.trucks.list.selected == [0]
    && s.wheels.list.selected == [0] && s.accessories.list.selected == []
  }

  /** What pressing Purchase leads to: the "no items" notice, or the totals
      dialog; either way with the state the handler leaves behind. */
  datatype Outcome = NoItems(state: AppState) | Purchased(totals: Totals, state: AppState)

  /** The price a single panel's selection stands for, read by index: entry 0
      when nothing is selected. */
  function Chosen(p: Panel): real
    requires SinglePanel(p)
  {
    p.catalog.prices[if p.list.selected == [] then 0 else p.list.selected[0]]
  }

  /** The reference subtotal: the chosen deck, trucks and wheels plus every
      selected accessory, read by index rather than by name. */
  function IndexSubtotal(s: AppState): real
    requires ValidState(s)
  {
    Chosen(s.deck) + Chosen(s.trucks) + Chosen(s.wheels)
      + SumAt(s.accessories.catalog.prices, s.accessories.list.selected)
  }

  /** Only an empty single list is touched before pricing: it gets entry 0. */
  predicate CoercedFrom(p: Panel, q: Panel)
  {
    && q.catalog == p.catalog && q.list.size == p.list.size && q.list.mode == p.list.mode
    && q.list.selected == (if p.list.selected == [] then [0] else p.list.selected)
  }

  /** `PurchaseButtonListener.actionPerformed`. */
  function Purchase(s: AppState): (r: Outcome)
    requires ValidState(s)
    ensures ValidState(r.state)
    ensures r.NoItems? ==>
              && CoercedFrom(s.deck, r.state.deck) && CoercedFrom(s.trucks, r.state.trucks)
              && CoercedFrom(s.wheels, r.state.wheels) && r.state.accessories == s.accessories
    ensures r.Purchased? ==>
              && Cleared(r.state)
              && r.state.deck.catalog == s.deck.catalog && r.state.trucks.catalog == s.trucks.catalog
              && r.state.wheels.catalog == s.wheels.catalog
              && r.state.accessories.catalog == s.accessories.catalog
    ensures r.Purchased? ==> 0.0 < r.totals.subtotal < r.totals.total
    ensures r.Purchased? ==> r.totals.tax * 100.0 == r.totals.subtotal * 6.0
    ensures r.Purchased? ==> r.totals.total == r.totals.subtotal + r.totals.tax
    ensures DistinctCatalogs(s) ==> (r.NoItems? <==> IndexSubtotal(s) == 0.0)
    ensures DistinctCatalogs(s) && r.Purchased? ==> r.totals.subtotal == IndexSubtotal(s)
  {
    var d := SingleCost(s.deck);
    var t := SingleCost(s.trucks);
    var w := SingleCost(s.wheels);
    var a := AccessoryCost(s.accessories);
    var subtotal := d.cost + t.cost + w.cost + a;
    var after := AppState(d.panel, t.panel, w.panel, s.accessories);
    assert DistinctCatalogs(s) ==> subtotal == IndexSubtotal(s) by {
      if DistinctCatalogs(s) { CostsAreIndexSubtotal(s); }
    }
    if subtotal == 0.0 then NoItems(after)
    else Purchased(MakeTotals(subtotal), ClearAll(after))
  }

  /** With unique names, the four getters together read exactly the index
      sum of the selections. */
  lemma CostsAreIndexSubtotal(s: AppState)
    requires ValidState(s) && DistinctCatalogs(s)
    ensures SingleCost(s.deck).cost + SingleCost(s.trucks).cost + SingleCost(s.wheels).cost
              + AccessoryCost(s.accessories) == IndexSubtotal(s)
  {
    assert SingleCost(s.deck).cost == Chosen(s.deck);
    assert SingleCost(s.trucks).cost == Chosen(s.trucks);
    assert SingleCost(s.wheels).cost == Chosen(s.wheels);
  }

  /** With "None" free in every single list, a state with nothing chosen
      brings only the "no items" notice and stays as it is. */
  lemma NothingChosenMeansNoItems(s: AppState)
    requires ValidState(s) && Cleared(s)
    requires s.deck.catalog.prices[0] == 0.0 && s.trucks.catalog.prices[0] == 0.0
    requires s.wheels.catalog.prices[0] == 0.0
    ensures Purchase(s) == NoItems(s)
  {
  }

  /** After a completed purchase, pressing Purchase again finds nothing to sell. */
  lemma SecondPurchaseFindsNothing(s: AppState)
    requires ValidState(s)
    requires s.deck.catalog.prices[0] == 0.0 && s.trucks.catalog.prices[0] == 0.0
    requires s.wheels.catalog.prices[0] == 0.0
    requires Purchase(s).Purchased?
    ensures Purchase(Purchase(s).state) == NoItems(Purchase(s).state)
  {
    NothingChosenMeansNoItems(Purchase(s).state);
  }

  /** Deck "Master Thrasher", wheels "55 mm" and "Bearings" come to 112.00
      plus 6.72 tax. */
  lemma ScenarioThrasherWheelsBearings()
    ensures
      var s := Initial();
      var s1 := s.(deck := s.deck.(list := s.deck.list.(selected := [1])),
                   wheels := s.wheels.(list := s.wheels.list.(selected := [2])),
                   accessories := s.accessories.(list := s.accessories.list.(selected := [1])));
      ValidState(s1) && Purchase(s1).Purchased? && Purchase(s1).totals == Totals(112.00, 6.72, 118.72)
  {
    var s := Initial();
    var s1 := s.(deck := s.deck.(list := s.deck.list.(selected := [1])),
                 wheels := s.wheels.(list := s.wheels.list.(selected := [2])),
                 accessories := s.accessories.(list := s.accessories.list.(selected := [1])));
    assert SumAt(s1.accessories.catalog.prices, [1]) == 30.00;
    assert IndexSubtotal(s1) == 60.00 + 0.00 + 22.00 + 30.00;
  }

  /** Only "Grip tape" and "Nuts & bolts kit" come to 13.00 plus 0.78 tax. */
  lemma ScenarioAccessoriesOnly()
    ensures
      var s := Initial();
      var s1 := s.(accessories := s.accessories.(list := s.accessories.list.(selected := [0, 3])));
      ValidState(s1) && Purchase(s1).Purchased? && Purchase(s1).totals == Totals(13.00, 0.78, 13.78)
  {
    var s := Initial();
    var s1 := s.(accessories := s.accessories.(list := s.accessories.list.(selected := [0, 3])));
    var prices := s1.accessories.catalog.prices;
    assert prices == [10.00, 30.00, 2.00, 3.00];
    assert [0, 3][1..] == [3] && [3][1..] == [];
    assert SumAt(prices, [3]) == 3.00;
    assert SumAt(prices, [0, 3]) == 13.00;
    assert Chosen(s1.deck) == 0.0 && Chosen(s1.trucks) == 0.0 && Chosen(s1.wheels) == 0.0;
    assert IndexSubtotal(s1) == 13.00;
  }
}

=== FILE: registry.dfy ===
/** The element registry of the registry variant: widgets registered under a
    tag, each carrying a price table, looked up by tag. */
module Registry {
  import opened Wrappers
  import opened Search
  import opened JListModel

  datatype ElemType = Null | Button | Label | List

  /** The widget handed to an element's constructor; only a list's selection
      matters to pricing. */
  datatype Widget = ListWidget(state: ListState) | LabelWidget | ButtonWidget

  /** An element: its kind, its tag, its price table, and the list it wraps
      (None where the Java field stays null). */
  datatype Element = Element(kind: ElemType, tag: string, prices: seq<real>, list: Option<ListState>)

  /** The (type, tag, object, panel) constructor: a one-entry price table
      holding 0.00 whatever the kind, and a list only for a LIST element
      built around a list widget. */
  function NewElement(kind: ElemType, tag: string, obj: Widget): (e: Element)
    ensures e.kind == kind && e.tag == tag
    ensures e.prices == [0.00]
    ensures e.list.Some? <==> kind == List && obj.ListWidget?
    ensures e.list.Some? ==> e.list.value == obj.state
  {
    Element(kind, tag, [0.00], if kind == List && obj.ListWidget? then Some(obj.state) else None)
  }

  function GetPrices(e: Element): seq<real>
  {
    e.prices
  }

  /** `setPrices`: the price table is replaced, nothing else about the element changes. */
  function SetPrices(e: Element, prices: seq<real>): (r: Element)
    ensures GetPrices(r) == prices
    ensures r.kind == e.kind && r.tag == e.tag && r.list == e.list
  {
    e.(prices := prices)
  }

  /** The registry: elements in registration order. */
  datatype Elements = Elements(items: seq<Element>)

  /** `Elements.add`: the new element goes at the end; the earlier ones keep
      their places. */
  function Add(es: Elements, e: Element): (r: Elements)
    ensures |r.items| == |es.items| + 1
    ensures r.items[|es.items|] == e
    ensures forall i :: 0 <= i < |es.items| ==> r.items[i] == es.items[i]
  {
    Elements(es.items + [e])
  }

  /** The tags of the elements, in registration order. */
  function Tags(items: seq<Element>): (t: seq<string>)
    ensures |t| == |items|
    ensures forall i :: 0 <= i < |items| ==> t[i] == items[i].tag
  {
    seq(|items|, i requires 0 <= i < |items| => items[i].tag)
  }

  /** Where `getByTag` stops: the first element with the tag. */
  function IndexOfTag(items: seq<Element>, tag: string): (r: Option<nat>)
    ensures r.Some? ==> r.value < |items| && items[r.value].tag == tag
    ensures r.Some? ==> forall j :: 0 <= j < r.value ==> items[j].tag != tag
    ensures r.None? <==> forall j :: 0 <= j < |items| ==> items[j].tag != tag
  {
    var r := FirstIndexOf(Tags(items), tag);
    assert r.None? ==> forall j :: 0 <= j < |items| ==> Tags(items)[j] != tag;
    r
  }

  /** `Elements.getByTag`: the first element registered under the tag, or
      None (null) when no element has it. */
  function GetByTag(es: Elements, tag: string): (r: Option<Element>)
    ensures r.None? <==> forall j :: 0 <= j < |es.items| ==> es.items[j].tag != tag
    ensures r.Some? ==> r.value.tag == tag
    ensures r.Some? ==> exists i :: 0 <= i < |es.items| && es.items[i] == r.value
                                  && forall j :: 0 <= j < i ==> es.items[j].tag != tag
  {
    match IndexOfTag(es.items, tag)
    case None => None
    case Some(i) => Some(es.items[i])
  }

  /** Registering an element never changes what an earlier registration
      answers: a later element with a tag already present is never found. */
  lemma GetByTagAfterAdd(es: Elements, e: Element, tag: string)
    ensures GetByTag(Add(es, e), tag) ==
            if GetByTag(es, tag).Some? then GetByTag(es, tag)
            else if e.tag == tag then Some(e)
            else None
  {
    var r := Add(es, e).items;
    match IndexOfTag(es.items, tag)
    case Some(i) =>
      assert IndexOfTag(r, tag) == Some(i) by {
        assert r[i].tag == tag;
      }
    case None =>
  }
}

=== FILE: registry_app.dfy ===
/** The registry variant of the shop: every panel registers its list, with
    its price table, under a tag, and the Purchase handler prices whatever it
    finds under a fixed list of tags. */
module RegistryApp {
  import opened Wrappers
  import opened Search
  import opened JListModel
  import opened Catalog
  import opened Tax
  import opened Registry

  const TagPrefixes: seq<string> := ["Deck", "Trucks", "Wheels", "Accessory"]

  /** The tags the Purchase handler asks for, in the order it asks. */
  function PurchaseTags(): (tags: seq<string>)
    ensures tags == ["DeckList", "TrucksList", "WheelsList", "AccessoryList"]
  {
    assert TagPrefixes[0] + "List" == "DeckList";
    assert TagPrefixes[1] + "List" == "TrucksList";
    assert TagPrefixes[2] + "List" == "WheelsList";
    assert TagPrefixes[3] + "List" == "AccessoryList";
    seq(|TagPrefixes|, i requires 0 <= i < |TagPrefixes| => TagPrefixes[i] + "List")
  }

  /** The registry the window builds: the title label first, then the deck,
      trucks, wheels and accessory lists, each given its catalog's prices. */
  function InitialRegistry(): (es: Elements)
    ensures Tags(es.items) == ["TitleLabel", "DeckList", "TrucksList", "WheelsList", "AccessoryList"]
  {
    var title := NewElement(Label, "TitleLabel", LabelWidget);
    var deck := SetPrices(NewElement(List, "DeckList", ListWidget(ListState(4, SingleSelection, [0]))), Decks().prices);
    var trucks := SetPrices(NewElement(List, "TrucksList", ListWidget(ListState(4, SingleSelection, [0]))), Trucks().prices);
    var wheels := SetPrices(NewElement(List, "WheelsList", ListWidget(ListState(5, SingleSelection, [0]))), Wheels().prices);
    var accessories := SetPrices(NewElement(List, "AccessoryList", ListWidget(ListState(4, MultipleIntervalSelection, []))), Accessories().prices);
    var es := Add(Add(Add(Add(Add(Elements([]), title), deck), trucks), wheels), accessories);
    assert es.items == [title, deck, trucks, wheels, accessories];
    es
  }

  /** Which lists have an empty selection replaced by index 0 before
      pricing: every list (as the handler is written), or only
      single-selection lists (as the per-panel getters do it). */
  datatype Coercion = AnyList | SingleSelectOnly

  function CoerceEmpty(policy: Coercion, l: ListState): (r: ListState)
    ensures r.size == l.size && r.mode == l.mode
    ensures Valid(l) ==> Valid(r)
    ensures l.selected != [] ==> r == l
    ensures (policy == AnyList || l.mode == SingleSelection) && l.size > 0 ==> r.selected != []
    ensures (policy == AnyList || l.mode == SingleSelection) && l.selected == [] && l.size > 0 ==>
              r.selected == [0]
    ensures policy == SingleSelectOnly && l.mode == MultipleIntervalSelection ==> r == l
  {
    if policy == AnyList || l.mode == SingleSelection then SelectFirstIfEmpty(l) else l
  }

  /** The runtime exceptions the handler can raise: a found element with no
      list, or a selected index beyond the price table. */
  datatype Fault = NullList(tag: string) | IndexOutOfBounds(tag: string, index: nat)

  /** The inner loop's result: the prices added up, or the first index that
      has no price. */
  datatype Priced = Sum(value: real) | OutOfRange(index: nat)

  /** `for (int index : selectionIndices) subtotal += prices[index];` */
  function PriceList(prices: seq<real>, selected: seq<nat>): (r: Priced)
    ensures r.Sum? <==> IndicesBelow(selected, |prices|)
    ensures r.Sum? ==> r.value == SumAt(prices, selected)
    ensures r.OutOfRange? ==> r.index >= |prices| && r.index in selected
  {
    if |selected| == 0 then Sum(0.0)
    else if selected[0] >= |prices| then OutOfRange(selected[0])
    else
      match PriceList(prices, selected[1..])
      case Sum(v) => Sum(prices[selected[0]] + v)
      case OutOfRange(i) => OutOfRange(i)
  }

  /** The tag loop's result: the subtotal and the elements as the loop leaves
      them, or the fault that ended it and the elements at that moment. */
  datatype Tally = Tally(subtotal: real, items: seq<Element>) | Failed(fault: Fault, items: seq<Element>)

  /** Only the list selections change, and only by the defensive step. */
  predicate SameButSelections(policy: Coercion, items: seq<Element>, items': seq<Element>)
  {
    && |items'| == |items|
    && forall i :: 0 <= i < |items| ==>
         && items'[i].kind == items[i].kind && items'[i].tag == items[i].tag
         && items'[i].prices == items[i].prices && items'[i].list.Some? == items[i].list.Some?
         && (items[i].list.Some? ==>
               items'[i].list.value == items[i].list.value
               || items'[i].list.value == CoerceEmpty(policy, items[i].list.value))
  }

  /** The `for (String tagPref : TAG_PREFIXES)` loop, from `sub` onward. */
  function PriceTags(policy: Coercion, tags: seq<string>, items: seq<Element>, sub: real): Tally
    decreases |tags|
  {
    if |tags| == 0 then Tally(sub, items)
    else
      var tag := tags[0];
      match IndexOfTag(items, tag)
      case None => PriceTags(policy, tags[1..], items, sub)
      case Some(i) =>
        var e := items[i];
        if e.list.None? then Failed(NullList(tag), items)
        else
          var l := CoerceEmpty(policy, e.list.value);
          var items' := items[i := e.(list := Some(l))];
          match PriceList(e.prices, l.selected)
          case OutOfRange(k) => Failed(IndexOutOfBounds(tag, k), items')
          case Sum(v) => PriceTags(policy, tags[1..], items', sub + v)
  }

  /** The tag loop changes nothing but list selections, and those only by
      the defensive step. */
  lemma {:induction false} PriceTagsFrame(policy: Coercion, tags: seq<string>, items: seq<Element>, sub: real)
    ensures SameButSelections(policy, items, PriceTags(policy, tags, items, sub).items)
    decreases |tags|
  {
    if |tags| > 0 {
      match IndexOfTag(items, tags[0])
      case None =>
        PriceTagsFrame(policy, tags[1..], items, sub);
      case Some(i) =>
        var e := items[i];
        if e.list.Some? {
          var l := CoerceEmpty(policy, e.list.value);
          var items' := items[i := e.(list := Some(l))];
          assert SameButSelections(policy, items, items');
          match PriceList(e.prices, l.selected)
          case OutOfRange(k) =>
          case Sum(v) =>
            PriceTagsSumStep(policy, tags, items, sub, i, l, v);
            PriceTagsFrame(policy, tags[1..], items', sub + v);
            SameButSelectionsTrans(policy, items, items', PriceTags(policy, tags[1..], items', sub + v).items);
        }
    }
  }

  /** One step of the tag loop over a found list whose selection has prices. */
  lemma PriceTagsSumStep(policy: Coercion, tags: seq<string>, items: seq<Element>, sub: real,
                         i: nat, l: ListState, v: real)
    requires |tags| > 0 && IndexOfTag(items, tags[0]) == Some(i) && items[i].list.Some?
    requires l == CoerceEmpty(policy, items[i].list.value)
    requires PriceList(items[i].prices, l.selected) == Sum(v)
    ensures PriceTags(policy, tags, items, sub) ==
            PriceTags(policy, tags[1..], items[i := items[i].(list := Some(l))], sub + v)
  {
  }

  lemma SameButSelectionsTrans(policy: Coercion, a: seq<Element>, b: seq<Element>, c: seq<Element>)
    requires SameButSelections(policy, a, b) && SameButSelections(policy, b, c)
    ensures SameButSelections(policy, a, c)
  {
    forall i | 0 <= i < |a| && a[i].list.Some?
      ensures c[i].list.value == a[i].list.value || c[i].list.value == CoerceEmpty(policy, a[i].list.value)
    {
      SelectFirstIfEmptyIdempotent(a[i].list.value);
    }
  }

  /** Under `SameButSelections`, every element keeps its kind, tag, prices
      and the size and mode of its list. */
  lemma SameButSelectionsShape(policy: Coercion, items: seq<Element>, items': seq<Element>, k: nat)
    requires SameButSelections(policy, items, items') && k < |items|
    ensures items'[k].kind == items[k].kind && items'[k].tag == items[k].tag
    ensures items'[k].prices == items[k].prices && items'[k].list.Some? == items[k].list.Some?
    ensures items[k].list.Some? ==> items'[k].list.value.size == items[k].list.value.size
    ensures items[k].list.Some? ==> items'[k].list.value.mode == items[k].list.value.mode
  {
  }

  /** The selection a found list is priced by. */
  function Effective(policy: Coercion, e: Element): seq<nat>
    requires e.list.Some?
  {
    CoerceEmpty(policy, e.list.value).selected
  }

  /** Every queried tag that is registered names a list whose selection, once
      made non-empty, lies within its price table: nothing can go wrong. */
  predicate Priceable(policy: Coercion, tags: seq<string>, items: seq<Element>)
  {
    forall t :: t in tags && IndexOfTag(items, t).Some? ==>
      var e := items[IndexOfTag(items, t).value];
      e.list.Some? && IndicesBelow(Effective(policy, e), |e.prices|)
  }

  /** The reference subtotal: for each queried tag, the sum of the prices at
      the found list's selection, read from the registry as it is. */
  function RefSum(policy: Coercion, tags: seq<string>, items: seq<Element>): real
    requires Priceable(policy, tags, items)
    decreases |tags|
  {
    if |tags| == 0 then 0.0
    else
      var rest := RefSum(policy, tags[1..], items);
      match IndexOfTag(items, tags[0])
      case None => rest
      case Some(i) => SumAt(items[i].prices, Effective(policy, items[i])) + rest
  }

  /** The defensive step changes nothing that lookups or later prices see. */
  lemma CoercionInvisible(policy: Coercion, tags: seq<string>, items: seq<Element>, i: nat)
    requires i < |items| && items[i].list.Some?
    requires Priceable(policy, tags, items)
    ensures var items' := items[i := items[i].(list := Some(CoerceEmpty(policy, items[i].list.value)))];
            && (forall t :: IndexOfTag(items', t) == IndexOfTag(items, t))
            && Priceable(policy, tags, items')
            && RefSum(policy, tags, items') == RefSum(policy, tags, items)
    decreases |tags|
  {
    var items' := items[i := items[i].(list := Some(CoerceEmpty(policy, items[i].list.value)))];
    assert Tags(items') == Tags(items);
    SelectFirstIfEmptyIdempotent(items[i].list.value);
    assert Effective(policy, items'[i]) == Effective(policy, items[i]);
    if |tags| > 0 {
      CoercionInvisible(policy, tags[1..], items, i);
    }
  }

  /** The tag loop computes the reference subtotal and raises nothing,
      whenever the registry is priceable. */
  lemma {:induction false} PriceTagsMatchesReference(policy: Coercion, tags: seq<string>, items: seq<Element>, sub: real)
    requires Priceable(policy, tags, items)
    ensures PriceTags(policy, tags, items, sub).Tally?
    ensures PriceTags(policy, tags, items, sub).subtotal == sub + RefSum(policy, tags, items)
    decreases |tags|
  {
    if |tags| > 0 {
      assert Priceable(policy, tags[1..], items);
      match IndexOfTag(items, tags[0])
      case None =>
        PriceTagsMatchesReference(policy, tags[1..], items, sub);
      case Some(i) =>
        var e := items[i];
        assert e.list.Some? && IndicesBelow(Effective(policy, e), |e.prices|);
        var l := CoerceEmpty(policy, e.list.value);
        var items' := items[i := e.(list := Some(l))];
        var v := SumAt(e.prices, l.selected);
        assert PriceList(e.prices, l.selected) == Sum(v);
        assert PriceTags(policy, tags, items, sub) == PriceTags(policy, tags[1..], items', sub + v);
        assert RefSum(policy, tags, items) == v + RefSum(policy, tags[1..], items);
        CoercionInvisible(policy, tags[1..], items, i);
        PriceTagsMatchesReference(policy, tags[1..], items', sub + v);
    }
  }

  /** Writing a list back into its element moves no tag, so every lookup
      answers as before. */
  lemma ListUpdateKeepsLookups(items: seq<Element>, i: nat, l: Option<ListState>)
    requires i < |items|
    ensures forall t :: IndexOfTag(items[i := items[i].(list := l)], t) == IndexOfTag(items, t)
  {
    assert Tags(items[i := items[i].(list := l)]) == Tags(items);
  }

  /** A queried tag that makes pricing fail: it names an element with no
      list, or a list with a selected index beyond its price table. */
  predicate BadTag(policy: Coercion, items: seq<Element>, t: string)
  {
    && IndexOfTag(items, t).Some?
    && var e := items[IndexOfTag(items, t).value];
       !(e.list.Some? && IndicesBelow(Effective(policy, e), |e.prices|))
  }

  /** Writing a list back into an element under another tag leaves a bad tag bad. */
  lemma BadTagSurvivesUpdate(policy: Coercion, items: seq<Element>, i: nat, l: Option<ListState>, t: string)
    requires i < |items| && items[i].tag != t && BadTag(policy, items, t)
    ensures BadTag(policy, items[i := items[i].(list := l)], t)
  {
    ListUpdateKeepsLookups(items, i, l);
    var j := IndexOfTag(items, t).value;
    assert items[i := items[i].(list := l)][j] == items[j];
  }

  /** The rest of the tag loop after a found list was priced: the loop fails
      when the rest of the tags cannot be priced in the updated registry. */
  lemma {:induction false} PriceTagsFailsAfterSum(policy: Coercion, tags: seq<string>, items: seq<Element>, sub: real,
                                                 i: nat, l: ListState, v: real)
    requires |tags| > 0 && Distinct(tags[1..])
    requires IndexOfTag(items, tags[0]) == Some(i) && items[i].list.Some?
    requires l == CoerceEmpty(policy, items[i].list.value)
    requires PriceList(items[i].prices, l.selected) == Sum(v)
    requires !Priceable(policy, tags[1..], items[i := items[i].(list := Some(l))])
    ensures PriceTags(policy, tags, items, sub).Failed?
    decreases |tags|, 0
  {
    PriceTagsFailsWhenUnpriceable(policy, tags[1..], items[i := items[i].(list := Some(l))], sub + v);
  }

  /** The converse of `PriceTagsMatchesReference`: when some queried tag
      names an element with no list, or a list with a selected index beyond
      its price table, the tag loop raises an exception. The tags must be
      distinct, so that the element a later tag finds is not the one whose
      selection an earlier step has just made non-empty. */
  lemma {:induction false} PriceTagsFailsWhenUnpriceable(policy: Coercion, tags: seq<string>, items: seq<Element>, sub: real)
    requires Distinct(tags)
    requires !Priceable(policy, tags, items)
    ensures PriceTags(policy, tags, items, sub).Failed?
    decreases |tags|, 1
  {
    var t :| t in tags && BadTag(policy, items, t);
    var rest := tags[1..];
    assert Distinct(rest);
    assert t != tags[0] ==> t in rest by {
      var k :| 0 <= k < |tags| && tags[k] == t;
      if k > 0 { assert rest[k - 1] == t; }
    }
    match IndexOfTag(items, tags[0])
    case None =>
      assert BadTag(policy, items, t);
      assert IndexOfTag(items, t).Some?;
      assert t != tags[0];
      PriceTagsFailsWhenUnpriceable(policy, rest, items, sub);
      assert PriceTags(policy, tags, items, sub).Failed?;
    case Some(i) =>
      var e := items[i];
      if e.list.None? {
        assert PriceTags(policy, tags, items, sub).Failed?;
      } else {
        var l := CoerceEmpty(policy, e.list.value);
        var items' := items[i := e.(list := Some(l))];
        match PriceList(e.prices, l.selected)
        case OutOfRange(k) =>
          assert PriceTags(policy, tags, items, sub).Failed?;
        case Sum(v) =>
          assert !BadTag(policy, items, tags[0]);
          BadTagSurvivesUpdate(policy, items, i, Some(l), t);
          PriceTagsFailsAfterSum(policy, tags, items, sub, i, l, v);
      }
  }

  /** What pressing Purchase leads to, with the registry the handler leaves behind. */
  datatype Outcome =
    | NoItems(items: seq<Element>)
    | Purchased(totals: Totals, items: seq<Element>)
    | Crashed(fault: Fault, items: seq<Element>)

  function IsSingleTag(tag: string): bool
  {
    tag == "DeckList" || tag == "TrucksList" || tag == "WheelsList"
  }

  /** One panel's `clearSelection`, applied to the element registered under
      its tag: the deck, trucks and wheels lists go back to entry 0, the
      accessory list to no selection; any other element is untouched. */
  function ClearElement(e: Element): (r: Element)
    ensures r.kind == e.kind && r.tag == e.tag && r.prices == e.prices && r.list.Some? == e.list.Some?
    ensures e.list.Some? && IsSingleTag(e.tag) && e.list.value.size > 0 ==> r.list.value.selected == [0]
    ensures e.list.Some? && e.tag == "AccessoryList" ==> r.list.value.selected == []
    ensures !IsSingleTag(e.tag) && e.tag != "AccessoryList" ==> r == e
    ensures e.list.Some? ==> r.list.value.size == e.list.value.size && r.list.value.mode == e.list.value.mode
    ensures e.list.Some? && IsSingleTag(e.tag) && e.list.value.size == 0 ==> r == e
  {
    if e.list.None? then e
    else if IsSingleTag(e.tag) then e.(list := Some(SetSelectedIndex(e.list.value, 0)))
    else if e.tag == "AccessoryList" then e.(list := Some(ClearSelection(e.list.value)))
    else e
  }

  /** Clearing overwrites the selection: what it leaves does not depend on
      what was selected before. */
  lemma ClearElementForgetsSelection(e: Element, e': Element)
    requires e'.kind == e.kind && e'.tag == e.tag && e'.prices == e.prices && e'.list.Some? == e.list.Some?
    requires e.list.Some? ==> e'.list.value.size == e.list.value.size && e'.list.value.mode == e.list.value.mode
    requires e.list.Some? ==> IsSingleTag(e.tag) || e.tag == "AccessoryList"
    requires e.list.Some? && IsSingleTag(e.tag) ==> e.list.value.size > 0
    ensures ClearElement(e') == ClearElement(e)
  {
  }

  /** The four panels' `clearSelection`, over the whole registry. */
  function ClearPanels(items: seq<Element>): (r: seq<Element>)
    ensures |r| == |items|
    ensures forall i :: 0 <= i < |items| ==> r[i] == ClearElement(items[i])
  {
    seq(|items|, i requires 0 <= i < |items| => ClearElement(items[i]))
  }

  /** Clearing a registry whose only lists are the four panels' forgets
      every earlier selection. */
  lemma ClearPanelsForgetsSelections(policy: Coercion, items: seq<Element>, items': seq<Element>)
    requires SameButSelections(policy, items, items')
    requires forall k :: 0 <= k < |items| && items[k].list.Some? ==>
               IsSingleTag(items[k].tag) || items[k].tag == "AccessoryList"
    requires forall k :: 0 <= k < |items| && items[k].list.Some? && IsSingleTag(items[k].tag) ==>
               items[k].list.value.size > 0
    ensures ClearPanels(items') == ClearPanels(items)
  {
    forall k | 0 <= k < |items|
      ensures ClearPanels(items')[k] == ClearPanels(items)[k]
    {
      SameButSelectionsShape(policy, items, items', k);
      ClearElementForgetsSelection(items[k], items'[k]);
    }
  }

  /** `PurchaseButtonListener.actionPerformed`, with the given coercion policy
      (`AnyList` is the handler as written). */
  function PurchaseUnder(policy: Coercion, items: seq<Element>): (r: Outcome)
    ensures r.Crashed? <==> !Priceable(policy, PurchaseTags(), items)
    ensures Priceable(policy, PurchaseTags(), items) ==>
              && (r.NoItems? <==> RefSum(policy, PurchaseTags(), items) == 0.0)
              && (r.Purchased? ==> r.totals.subtotal == RefSum(policy, PurchaseTags(), items))
    ensures r.NoItems? ==> SameButSelections(policy, items, r.items)
    ensures r.Crashed? ==> SameButSelections(policy, items, r.items)
    ensures r.Purchased? ==> r.totals.subtotal != 0.0
    ensures r.Purchased? ==> r.totals.tax * 100.0 == r.totals.subtotal * 6.0
    ensures r.Purchased? ==> r.totals.total == r.totals.subtotal + r.totals.tax
  {
    var tally := PriceTags(policy, PurchaseTags(), items, 0.0);
    PriceTagsFrame(policy, PurchaseTags(), items, 0.0);
    assert Priceable(policy, PurchaseTags(), items) ==>
             tally.Tally? && tally.subtotal == RefSum(policy, PurchaseTags(), items) by {
      if Priceable(policy, PurchaseTags(), items) {
        PriceTagsMatchesReference(policy, PurchaseTags(), items, 0.0);
      }
    }
    assert !Priceable(policy, PurchaseTags(), items) ==> tally.Failed? by {
      if !Priceable(policy, PurchaseTags(), items) {
        PriceTagsFailsWhenUnpriceable(policy, PurchaseTags(), items, 0.0);
      }
    }
    match tally
    case Failed(f, items') => Crashed(f, items')
    case Tally(subtotal, items') =>
      if subtotal == 0.0 then NoItems(items')
      else Purchased(MakeTotals(subtotal), ClearPanels(items'))
  }

  /** A completed purchase clears the panels' lists of the registry the tag
      loop left, and that registry differs from the original only in its
      selections. */
  lemma PurchasedClears(policy: Coercion, items: seq<Element>)
    requires PurchaseUnder(policy, items).Purchased?
    ensures var x := PriceTags(policy, PurchaseTags(), items, 0.0).items;
            && SameButSelections(policy, items, x)
            && PurchaseUnder(policy, items).items == ClearPanels(x)
  {
    PriceTagsFrame(policy, PurchaseTags(), items, 0.0);
  }

  /** The handler as written. */
  function Purchase(items: seq<Element>): (r: Outcome)
    ensures r.Crashed? <==> !Priceable(AnyList, PurchaseTags(), items)
    ensures Priceable(AnyList, PurchaseTags(), items) ==>
              && !r.Crashed?
              && (r.NoItems? <==> RefSum(AnyList, PurchaseTags(), items) == 0.0)
              && (r.Purchased? ==> r.totals.subtotal == RefSum(AnyList, PurchaseTags(), items))
  {
    PurchaseUnder(AnyList, items)
  }

  /** A tag nobody registered adds nothing and raises nothing. */
  lemma UnregisteredTagContributesNothing(policy: Coercion, tag: string, rest: seq<string>, items: seq<Element>, sub: real)
    requires IndexOfTag(items, tag).None?
    ensures PriceTags(policy, [tag] + rest, items, sub) == PriceTags(policy, rest, items, sub)
  {
    assert ([tag] + rest)[1..] == rest;
  }

  /** An element in front under another tag shifts the lookup by one. */
  lemma IndexOfTagCons(e: Element, items: seq<Element>, tag: string)
    requires e.tag != tag
    ensures IndexOfTag([e] + items, tag) ==
            (match IndexOfTag(items, tag) case None => None case Some(i) => Some(i + 1))
  {
    var t := Tags([e] + items);
    assert t == [e.tag] + Tags(items) by {
      forall k | 0 <= k < |t| ensures t[k] == ([e.tag] + Tags(items))[k] {
        if k > 0 { assert ([e] + items)[k] == items[k - 1]; }
      }
    }
    FirstIndexOfCons(e.tag, Tags(items), tag);
    assert IndexOfTag([e] + items, tag) == FirstIndexOf(t, tag);
    assert IndexOfTag(items, tag) == FirstIndexOf(Tags(items), tag);
  }

  /** An element registered in front under a tag that is never asked for
      cannot make pricing fail. */
  lemma UnqueriedStillPriceable(policy: Coercion, e: Element, tags: seq<string>, items: seq<Element>)
    requires e.tag !in tags
    requires Priceable(policy, tags, items)
    ensures Priceable(policy, tags, [e] + items)
  {
    forall t | t in tags && IndexOfTag([e] + items, t).Some?
      ensures var f := ([e] + items)[IndexOfTag([e] + items, t).value];
              f.list.Some? && IndicesBelow(Effective(policy, f), |f.prices|)
    {
      IndexOfTagCons(e, items, t);
    }
  }

  /** An element registered in front under a tag that is never asked for
      (the title label) changes neither whether pricing can fail nor what it
      adds up to. */
  lemma {:induction false} UnqueriedElementIgnored(policy: Coercion, e: Element, tags: seq<string>, items: seq<Element>)
    requires e.tag !in tags
    requires Priceable(policy, tags, items)
    ensures Priceable(policy, tags, [e] + items)
    ensures RefSum(policy, tags, [e] + items) == RefSum(policy, tags, items)
    decreases |tags|
  {
    UnqueriedStillPriceable(policy, e, tags, items);
    if |tags| > 0 {
      assert Priceable(policy, tags[1..], items);
      UnqueriedElementIgnored(policy, e, tags[1..], items);
      IndexOfTagCons(e, items, tags[0]);
      match IndexOfTag(items, tags[0]) {
        case None =>
        case Some(i) => assert ([e] + items)[i + 1] == items[i];
      }
    }
  }
}

=== FILE: search.dfy ===
/** Linear first-match search, shared by the name-to-price lookup of the
    per-panel getters and the tag lookup of the element registry. */
module Search {
  import opened Wrappers

  /** The index of the first occurrence of `x` in `s`, or None when `x` does
      not occur: the `for … if (… == x) … break` loops of the source. */
  function FirstIndexOf<T(==)>(s: seq<T>, x: T): (r: Option<nat>)
    ensures r.Some? ==> r.value < |s| && s[r.value] == x
    ensures r.Some? ==> forall j :: 0 <= j < r.value ==> s[j] != x
    ensures r.None? <==> x !in s
  {
    if |s| == 0 then None
    else if s[0] == x then Some(0)
    else
      match FirstIndexOf(s[1..], x)
      case None => None
      case Some(i) => Some(i + 1)
  }

  /** Every element occurs at most once. */
  predicate Distinct<T(==)>(s: seq<T>)
  {
    forall i, j :: 0 <= i < j < |s| ==> s[i] != s[j]
  }

  /** In a sequence without repetitions, the first occurrence of `s[i]` is `i`. */
  lemma FirstIndexOfDistinct<T>(s: seq<T>, i: nat)
    requires Distinct(s) && i < |s|
    ensures FirstIndexOf(s, s[i]) == Some(i)
  {
    assert s[i] in s;
  }

  /** Putting an element that differs from `x` in front shifts the first
      occurrence of `x` by one and creates none. */
  lemma FirstIndexOfCons<T>(y: T, s: seq<T>, x: T)
    requires y != x
    ensures FirstIndexOf([y] + s, x) ==
            (match FirstIndexOf(s, x) case None => None case Some(i) => Some(i + 1))
  {
    assert ([y] + s)[1..] == s;
  }
}

=== FILE: tax.dfy ===
/** Sales tax and the totals shown to the customer. */
module Tax {

  /** SALES_TAX_RATE, 6 percent, as an exact rational. */
  const SalesTaxRate: real := 0.06

  datatype Totals = Totals(subtotal: real, tax: real, total: real)

  /** The totals of a purchase: the tax is 6 per cent of the subtotal and the
      total adds it on. */
  function MakeTotals(subtotal: real): (t: Totals)
    ensures t.subtotal == subtotal
    ensures t.tax * 100.0 == subtotal * 6.0
    ensures t.total == t.subtotal + t.tax
    ensures t.total * 100.0 == subtotal * 106.0
    ensures subtotal > 0.0 ==> 0.0 < t.tax < t.subtotal < t.total
  {
    var tax := subtotal * SalesTaxRate;
    Totals(subtotal, tax, subtotal + tax)
  }
}

=== FILE: versions.dfy ===
/** The two variants side by side: a per-panel window state seen as the
    registry the registry variant would hold for it, and what the two
    Purchase handlers make of the same selections. */
module Versions {
  import opened Wrappers
  import opened Search
  import opened Catalog
  import opened Registry
  import PanelApp
  import RegistryApp

  /** A panel's list as the registry variant registers it. */
  function ListElement(tag: string, p: PanelApp.Panel): (e: Element)
    ensures e.kind == List && e.tag == tag && e.prices == p.catalog.prices && e.list == Some(p.list)
  {
    SetPrices(NewElement(List, tag, ListWidget(p.list)), p.catalog.prices)
  }

  /** The registry holding the same catalogs and selections as a per-panel state. */
  function Embed(s: PanelApp.AppState): seq<Element>
  {
    [NewElement(Label, "TitleLabel", LabelWidget),
     ListElement("DeckList", s.deck), ListElement("TrucksList", s.trucks),
     ListElement("WheelsList", s.wheels), ListElement("AccessoryList", s.accessories)]
  }

  /** Both windows start out the same. */
  lemma InitialStatesCorrespond()
    ensures RegistryApp.InitialRegistry().items == Embed(PanelApp.Initial())
  {
  }

  /** The subtotal an outcome reports; nothing for the "no items" notice. */
  function PanelSubtotal(r: PanelApp.Outcome): real
  {
    if r.Purchased? then r.totals.subtotal else 0.0
  }

  function RegistrySubtotal(r: RegistryApp.Outcome): real
  {
    if r.Purchased? then r.totals.subtotal else 0.0
  }

  /** The four purchase tags are found at places 1 to 4 of an embedded state. */
  lemma EmbedLookups(s: PanelApp.AppState)
    ensures IndexOfTag(Embed(s), "DeckList") == Some(1)
    ensures IndexOfTag(Embed(s), "TrucksList") == Some(2)
    ensures IndexOfTag(Embed(s), "WheelsList") == Some(3)
    ensures IndexOfTag(Embed(s), "AccessoryList") == Some(4)
  {
    var t := Tags(Embed(s));
    assert t == ["TitleLabel", "DeckList", "TrucksList", "WheelsList", "AccessoryList"];
    assert Distinct(t);
    FirstIndexOfDistinct(t, 1);
    FirstIndexOfDistinct(t, 2);
    FirstIndexOfDistinct(t, 3);
    FirstIndexOfDistinct(t, 4);
  }

  /** The effective selection of a single-selection panel prices its chosen entry. */
  lemma SingleEffective(policy: RegistryApp.Coercion, p: PanelApp.Panel)
    requires PanelApp.SinglePanel(p)
    ensures IndicesBelow(RegistryApp.CoerceEmpty(policy, p.list).selected, |p.catalog.prices|)
    ensures SumAt(p.catalog.prices, RegistryApp.CoerceEmpty(policy, p.list).selected) == PanelApp.Chosen(p)
  {
    var sel := RegistryApp.CoerceEmpty(policy, p.list).selected;
    assert |sel| == 1;
    assert sel[1..] == [];
  }

  /** Each panel list of an embedded state can be priced. */
  lemma EmbedListPriceable(policy: RegistryApp.Coercion, s: PanelApp.AppState, k: nat)
    requires PanelApp.ValidState(s) && 1 <= k <= 4
    ensures Embed(s)[k].list.Some?
    ensures IndicesBelow(RegistryApp.Effective(policy, Embed(s)[k]), |Embed(s)[k].prices|)
  {
    var items := Embed(s);
    if k == 1 {
      SingleEffective(policy, s.deck);
    } else if k == 2 {
      SingleEffective(policy, s.trucks);
    } else if k == 3 {
      SingleEffective(policy, s.wheels);
    } else {
      assert items[4] == ListElement("AccessoryList", s.accessories);
    }
  }

  lemma EmbedPriceable(policy: RegistryApp.Coercion, s: PanelApp.AppState)
    requires PanelApp.ValidState(s)
    ensures RegistryApp.Priceable(policy, RegistryApp.PurchaseTags(), Embed(s))
  {
    var items := Embed(s);
    EmbedLookups(s);
    forall t | t in RegistryApp.PurchaseTags() && IndexOfTag(items, t).Some?
      ensures var e := items[IndexOfTag(items, t).value];
              e.list.Some? && IndicesBelow(RegistryApp.Effective(policy, e), |e.prices|)
    {
      EmbedListPriceable(policy, s, IndexOfTag(items, t).value);
    }
  }

  /** One step of the reference sum over a found tag. */
  lemma RefSumStep(policy: RegistryApp.Coercion, tags: seq<string>, items: seq<Element>, i: nat)
    requires |tags| > 0 && RegistryApp.Priceable(policy, tags, items)
    requires IndexOfTag(items, tags[0]) == Some(i)
    ensures RegistryApp.Priceable(policy, tags[1..], items)
    ensures RegistryApp.RefSum(policy, tags, items) ==
            SumAt(items[i].prices, RegistryApp.Effective(policy, items[i])) + RegistryApp.RefSum(policy, tags[1..], items)
  {
  }

  /** The registry variant's reference subtotal for an embedded state: the
      chosen deck, trucks and wheels, plus the accessories at their effective
      selection. */
  lemma EmbedRefSum(policy: RegistryApp.Coercion, s: PanelApp.AppState)
    requires PanelApp.ValidState(s)
    ensures RegistryApp.Priceable(policy, RegistryApp.PurchaseTags(), Embed(s))
    ensures RegistryApp.RefSum(policy, RegistryApp.PurchaseTags(), Embed(s)) ==
            PanelApp.Chosen(s.deck) + PanelApp.Chosen(s.trucks) + PanelApp.Chosen(s.wheels)
              + SumAt(s.accessories.catalog.prices,
                      RegistryApp.CoerceEmpty(policy, s.accessories.list).selected)
  {
    var items := Embed(s);
    var t0 := RegistryApp.PurchaseTags();
    EmbedLookups(s);
    EmbedPriceable(policy, s);
    SingleEffective(policy, s.deck);
    SingleEffective(policy, s.trucks);
    SingleEffective(policy, s.wheels);
    RefSumStep(policy, t0, items, 1);
    var t1 := t0[1..];
    assert t1 == ["TrucksList", "WheelsList", "AccessoryList"];
    RefSumStep(policy, t1, items, 2);
    var t2 := t1[1..];
    assert t2 == ["WheelsList", "AccessoryList"];
    RefSumStep(policy, t2, items, 3);
    var t3 := t2[1..];
    assert t3 == ["AccessoryList"];
    RefSumStep(policy, t3, items, 4);
    assert t3[1..] == [];
  }

  /** The per-panel handler's subtotal is the reference subtotal read by index. */
  lemma PanelSubtotalIsIndexSubtotal(s: PanelApp.AppState)
    requires PanelApp.ValidState(s) && PanelApp.DistinctCatalogs(s)
    ensures PanelSubtotal(PanelApp.Purchase(s)) == PanelApp.IndexSubtotal(s)
  {
  }

  /** The accessories as the registry handler as written prices them: the
      selection, or accessory 0 alone when nothing is selected. */
  lemma AsWrittenAccessorySum(p: PanelApp.Panel)
    requires PanelApp.MultiPanel(p) && |p.catalog.names| > 0
    ensures SumAt(p.catalog.prices, RegistryApp.CoerceEmpty(RegistryApp.AnyList, p.list).selected) ==
            SumAt(p.catalog.prices, p.list.selected)
              + (if p.list.selected == [] then p.catalog.prices[0] else 0.0)
  {
    var sel := RegistryApp.CoerceEmpty(RegistryApp.AnyList, p.list).selected;
    if p.list.selected == [] {
      assert sel == [0] && sel[1..] == [];
    }
  }

  /** The registry handler as written agrees with the per-panel handler except
      when no accessory is selected: then it also charges for accessory 0. */
  lemma AsWrittenAddsFirstAccessory(s: PanelApp.AppState)
    requires PanelApp.ValidState(s) && PanelApp.DistinctCatalogs(s)
    requires |s.accessories.catalog.names| > 0
    ensures !RegistryApp.Purchase(Embed(s)).Crashed?
    ensures RegistrySubtotal(RegistryApp.Purchase(Embed(s))) ==
            PanelSubtotal(PanelApp.Purchase(s))
              + (if s.accessories.list.selected == [] then s.accessories.catalog.prices[0] else 0.0)
  {
    var items := Embed(s);
    var tags := RegistryApp.PurchaseTags();
    EmbedRefSum(RegistryApp.AnyList, s);
    PanelSubtotalIsIndexSubtotal(s);
    AsWrittenAccessorySum(s.accessories);
    var ref := RegistryApp.RefSum(RegistryApp.AnyList, tags, items);
    var r := RegistryApp.PurchaseUnder(RegistryApp.AnyList, items);
    assert RegistryApp.Priceable(RegistryApp.AnyList, tags, items);
    assert !r.Crashed? && RegistrySubtotal(r) == ref;
  }

  /** With empty accessory lists coerced no longer, the registry handler
      computes exactly the per-panel subtotal, on every selection. */
  lemma CorrectedAgreesWithPanels(s: PanelApp.AppState)
    requires PanelApp.ValidState(s) && PanelApp.DistinctCatalogs(s)
    ensures !RegistryApp.PurchaseUnder(RegistryApp.SingleSelectOnly, Embed(s)).Crashed?
    ensures RegistryApp.PurchaseUnder(RegistryApp.SingleSelectOnly, Embed(s)).NoItems?
            <==> PanelApp.Purchase(s).NoItems?
    ensures RegistrySubtotal(RegistryApp.PurchaseUnder(RegistryApp.SingleSelectOnly, Embed(s))) ==
            PanelSubtotal(PanelApp.Purchase(s))
  {
    EmbedRefSum(RegistryApp.SingleSelectOnly, s);
    PanelSubtotalIsIndexSubtotal(s);
  }

  /** Once every list is cleared (single lists on "None" or empty, no
      accessory), the per-panel handler finds nothing to sell, while the
      registry handler as written still charges for accessory 0. */
  lemma ClearedStateDiverges(s: PanelApp.AppState)
    requires PanelApp.ValidState(s) && PanelApp.DistinctCatalogs(s)
    requires s.deck.list.selected in {[], [0]} && s.trucks.list.selected in {[], [0]}
    requires s.wheels.list.selected in {[], [0]} && s.accessories.list.selected == []
    requires s.deck.catalog.prices[0] == 0.0 && s.trucks.catalog.prices[0] == 0.0
    requires s.wheels.catalog.prices[0] == 0.0
    requires |s.accessories.catalog.names| > 0 && s.accessories.catalog.prices[0] > 0.0
    ensures PanelApp.Purchase(s).NoItems?
    ensures RegistryApp.Purchase(Embed(s)).Purchased?
    ensures RegistryApp.Purchase(Embed(s)).totals.subtotal == s.accessories.catalog.prices[0]
  {
    assert PanelApp.Chosen(s.deck) == 0.0 && PanelApp.Chosen(s.trucks) == 0.0;
    assert PanelApp.Chosen(s.wheels) == 0.0;
    assert PanelApp.IndexSubtotal(s) == 0.0;
    PanelSubtotalIsIndexSubtotal(s);
    AsWrittenAddsFirstAccessory(s);
  }

  /** Both windows as they open: the per-panel one shows the "no items"
      notice, the registry one sells a Grip tape for 10.00. */
  lemma OpeningPurchaseDiverges()
    ensures PanelApp.Purchase(PanelApp.Initial()).NoItems?
    ensures RegistryApp.Purchase(RegistryApp.InitialRegistry().items).Purchased?
    ensures RegistryApp.Purchase(RegistryApp.InitialRegistry().items).totals.subtotal == 10.00
  {
    InitialStatesCorrespond();
    ClearedStateDiverges(PanelApp.Initial());
  }

  /** A "Master Thrasher" deck and nothing else: 60.00 in the per-panel
      window, 70.00 in the registry window as written, 60.00 once corrected. */
  lemma PhantomGripTape()
    ensures
      var s := PanelApp.Initial();
      var s1 := s.(deck := s.deck.(list := s.deck.list.(selected := [1])));
      && PanelApp.Purchase(s1).Purchased? && PanelApp.Purchase(s1).totals.subtotal == 60.00
      && RegistryApp.Purchase(Embed(s1)).Purchased?
      && RegistryApp.Purchase(Embed(s1)).totals.subtotal == 70.00
      && RegistryApp.PurchaseUnder(RegistryApp.SingleSelectOnly, Embed(s1)).Purchased?
      && RegistryApp.PurchaseUnder(RegistryApp.SingleSelectOnly, Embed(s1)).totals.subtotal == 60.00
  {
    var s := PanelApp.Initial();
    var s1 := s.(deck := s.deck.(list := s.deck.list.(selected := [1])));
    assert PanelApp.IndexSubtotal(s1) == 60.00;
    AsWrittenAddsFirstAccessory(s1);
    CorrectedAgreesWithPanels(s1);
  }

  /** The panels' clearing, seen through the registry, is the per-panel clearing. */
  lemma ClearPanelsOnEmbed(s: PanelApp.AppState)
    requires PanelApp.ValidState(s)
    ensures RegistryApp.ClearPanels(Embed(s)) == Embed(PanelApp.ClearAll(s))
  {
  }

  /** The only lists of an embedded state are the four panels', none of the
      single ones empty. */
  lemma EmbedListsArePanels(s: PanelApp.AppState)
    requires PanelApp.ValidState(s)
    ensures forall k :: 0 <= k < |Embed(s)| && Embed(s)[k].list.Some? ==>
              RegistryApp.IsSingleTag(Embed(s)[k].tag) || Embed(s)[k].tag == "AccessoryList"
    ensures forall k :: 0 <= k < |Embed(s)| && Embed(s)[k].list.Some? && RegistryApp.IsSingleTag(Embed(s)[k].tag) ==>
              Embed(s)[k].list.value.size > 0
  {
  }

  /** After a completed purchase the registry holds the embedded cleared
      state, whatever the defensive step did to the lists before. */
  lemma PurchasedEmbedIsCleared(policy: RegistryApp.Coercion, s: PanelApp.AppState)
    requires PanelApp.ValidState(s)
    requires RegistryApp.PurchaseUnder(policy, Embed(s)).Purchased?
    ensures RegistryApp.PurchaseUnder(policy, Embed(s)).items == Embed(PanelApp.ClearAll(s))
  {
    RegistryApp.PurchasedClears(policy, Embed(s));
    var x := RegistryApp.PriceTags(policy, RegistryApp.PurchaseTags(), Embed(s), 0.0).items;
    EmbedListsArePanels(s);
    RegistryApp.ClearPanelsForgetsSelections(policy, Embed(s), x);
    ClearPanelsOnEmbed(s);
  }

  /** In the registry window as written, a completed purchase is never
      followed by the "no items" notice: pressing Purchase again sells
      accessory 0. */
  lemma AsWrittenSecondPurchaseSellsFirstAccessory(s: PanelApp.AppState)
    requires PanelApp.ValidState(s) && PanelApp.DistinctCatalogs(s)
    requires s.deck.catalog.prices[0] == 0.0 && s.trucks.catalog.prices[0] == 0.0
    requires s.wheels.catalog.prices[0] == 0.0
    requires |s.accessories.catalog.names| > 0 && s.accessories.catalog.prices[0] > 0.0
    requires RegistryApp.Purchase(Embed(s)).Purchased?
    ensures RegistryApp.Purchase(RegistryApp.Purchase(Embed(s)).items).Purchased?
    ensures RegistryApp.Purchase(RegistryApp.Purchase(Embed(s)).items).totals.subtotal
            == s.accessories.catalog.prices[0]
  {
    var c := PanelApp.ClearAll(s);
    PurchasedEmbedIsCleared(RegistryApp.AnyList, s);
    assert RegistryApp.Purchase(Embed(s)).items == Embed(c);
    assert PanelApp.ValidState(c) && PanelApp.DistinctCatalogs(c);
    assert c.deck.list.selected == [0] && c.trucks.list.selected == [0];
    assert c.wheels.list.selected == [0] && c.accessories.list.selected == [];
    ClearedStateDiverges(c);
  }
}

=== FILE: wrappers.dfy ===
/** Optional values: the model's stand-in for a Java reference that may be null. */
module Wrappers {

  datatype Option<+T> = None | Some(value: T)
}
